=== FILE: README.md ===
# bctw-ui form, map-page and export-chooser rules in Dafny

The web front-end of the BC telemetry warehouse (bctw-ui) is mostly React and
Leaflet glue. This project models the small deterministic rules buried in it and
proves what they do:

- `utils/common.ts`: the shallow form comparison `objectCompare`, the
  `columnToHeader` formatter, the key filters `omitNull` and `removeProps`,
  `isValidToast` and `getProperty` (module `Common`).
- `pages/map/MapPage.tsx`: the mortality/live ping colour, the popup text, the
  stable de-duplication of selected device ids, the Ctrl+S export source, the
  date-picker dispatch and the one-time map set-up (module `MapPage`).
- `pages/data/bulk/Export.tsx`: the export field chooser, a state machine over
  the two lists `(included, excluded)` (module `ExportChooser`).
- `pages/data/animals/EditCritter.tsx`: checkbox coercion, the dialog title,
  the record merge on save and the split of inputs into three groups (module
  `EditCritter`).

The JavaScript semantics these rules depend on are modelled in `JsValues`:
values (`undefined`, `null`, booleans, integer numbers, strings, functions and
objects by reference), records as `map<string, Value>` of own properties,
property reads (a key the object does not own reads as `undefined`; names
inherited from `Object.prototype` are not modelled), truthiness, the nullish test
that `??` uses, `typeof`, string conversion, `indexOf` and `join`. The `??`
operator itself is `EditCritter.Coalesce`, next to its one use. There is also a small object heap, so that
aliasing can be stated. `Object.assign(target, …)` returns `target` itself, and
two helpers rely on that.

Two behaviours of the code are worth knowing up front:

- A start date picked after the end date is stored as given; nothing clamps or
  swaps it (`PickDateDoesNotOrder`).
- Exporting a drawn selection with Ctrl+S does not work as written (Findings,
  fourth row).

## Model

| member | source | states |
|---|---|---|
| `Common.GetProperty` | react/src/utils/common.ts:10-12 | the property's value, or undefined when the key is absent |
| `Common.GetPropertyAfterSet` | react/src/utils/common.ts:10-12 | a written key reads back as the value written, and every other key reads as before |
| `Common.ObjectCompare` | react/src/utils/common.ts:20-31 | true exactly when every key of o1 agrees with o2 (a key o2 does not own reads as undefined), counting `''` and `null` as equal in either order |
| `Common.FormEqualReflexive` | react/src/utils/common.ts:20-31 | every record compares equal to itself |
| `Common.FormEqualIgnoresExtraKeys` | react/src/utils/common.ts:21 | only o1's keys are inspected: an empty o1 matches anything, and keys only in o2 never change the answer |
| `Common.FormEqualBlankRules` | react/src/utils/common.ts:23-25 | `''` matches `null` both ways, but `''` does not match a missing key and undefined does not match null; the comparison is not symmetric |
| `Common.ReplaceFirst` | react/src/utils/common.ts:34 | `replace('_', ' ')` changes only the first underscore and keeps the length |
| `Common.JoinSplit` | react/src/utils/common.ts:34-35 | `split(' ')` followed by `join(' ')` gives the string back |
| `Common.SplitPartsLackSeparator` | react/src/utils/common.ts:34 | no part of `split(' ')` contains a space |
| `Common.SplitCapitalizeJoin` | react/src/utils/common.ts:34-35 | capitalising each split word and re-joining is the same as upper-casing every word-initial character in place |
| `Common.ColumnToHeader` | react/src/utils/common.ts:33-36 | the header has the column's length; a character is upper-cased exactly when it starts a word after the first `_` became a space, and every other character is kept |
| `Common.ColumnToHeaderKeepsLaterUnderscores` | react/src/utils/common.ts:34 | underscores after the first one are kept, and a space appears only where the column had one or at its first underscore |
| `Common.WithoutBlanks` | react/src/utils/common.ts:43-45 | exactly the keys whose value is not null, undefined or `''` are kept, with their values unchanged |
| `Common.OmitNullAsWritten` | react/src/utils/common.ts:41-47 | the returned object is the argument itself, now holding exactly its non-blank keys; every other object is left as it was |
| `Common.OmitNullAsWrittenMutatesArgument` | react/src/utils/common.ts:38-47 | the caller's object loses its blank keys, against the doc comment |
| `Common.OmitNull` | react/src/utils/common.ts:38-47 | a fresh object with exactly the non-blank keys and their values; the argument is untouched |
| `Common.DeleteAll` | react/src/utils/common.ts:56 | deleting each listed key in turn leaves the record's keys minus the list, values unchanged |
| `Common.GetPropertyAfterDeleteAll` | react/src/utils/common.ts:56 | after the deletions a listed key reads as undefined and every other key reads as before |
| `Common.RemoveProps` | react/src/utils/common.ts:54-58 | a fresh copy whose keys are the object's keys minus the listed ones, values unchanged; no existing object changes |
| `Common.IsValidToast` | react/src/utils/common.ts:68-70 | true exactly when `typeof` the callback is `'function'` |
| `MapPage.PingStyle` | react/src/pages/map/MapPage.tsx:53-67 | fill is `#ff0000` exactly when `animal_status` is `'Mortality'` and `#00ff44` for every other status; radius 8, black outline, weight 1, opacity 1, fill opacity 0.9 |
| `MapPage.PingStyleDependsOnStatusOnly` | react/src/pages/map/MapPage.tsx:55-56 | two pings with the same status get the same style |
| `MapPage.FieldOr` | react/src/pages/map/MapPage.tsx:76 | a falsy field shows as the fallback (`''` for the species, `No WLHID` for the animal id), a truthy one as its string form |
| `MapPage.OptionalLine` | react/src/pages/map/MapPage.tsx:79-80 | an optional line is empty exactly when its value is falsy, and is caption, value and `<br>` otherwise |
| `MapPage.PopupLines` | react/src/pages/map/MapPage.tsx:75-83 | the seven popup lines: heading, rule, device line, then `Frequency of <radio_frequency><br>` and `Unit <population_unit><br>`, each empty exactly when its field is falsy, then time and coordinates |
| `MapPage.PopupText` | react/src/pages/map/MapPage.tsx:75-83 | the popup HTML built from the seven popup lines, each on a new line indented by eight spaces and closed by a six-space line, is the template literal's text, field by field |
| `MapPage.PopupReadsOnlyItsFields` | react/src/pages/map/MapPage.tsx:70-83 | two pings that agree on species, animal id, device id, vendor, frequency and unit get the same popup lines and text, whatever else they carry |
| `MapPage.PopupOfBarePing` | react/src/pages/map/MapPage.tsx:76-80 | a ping without species, id, frequency or unit shows ` No WLHID <br>` and empty optional lines |
| `MapPage.DeviceIds` | react/src/pages/map/MapPage.tsx:106-107 | one device id per selected feature, in order, undefined where the property is missing |
| `MapPage.DedupDistinct` | react/src/pages/map/MapPage.tsx:108-114 | the reduced device-id list has no duplicates |
| `MapPage.DedupSameElements` | react/src/pages/map/MapPage.tsx:108-114 | the reduced list holds exactly the values of the input |
| `MapPage.DedupFirstOccurrenceOrder` | react/src/pages/map/MapPage.tsx:108-114 | the reduced list is ordered by each value's first occurrence in the input |
| `MapPage.DedupOfDistinct` | react/src/pages/map/MapPage.tsx:108-114 | on input without repeats the reduce is the identity |
| `MapPage.DedupIdempotent` | react/src/pages/map/MapPage.tsx:108-114 | de-duplicating twice gives the same list as once |
| `MapPage.DistinctDeviceIds` | react/src/pages/map/MapPage.tsx:105-117 | the selected device ids, each once, holding the same values as the selection, in first-occurrence order |
| `MapPage.HandleKeyPress` | react/src/pages/map/MapPage.tsx:257-270 | anything but Ctrl with key code 83 (`SaveKeyCode`) does nothing; Ctrl+S downloads the selection when non-empty and all pings otherwise, as `collars.kml` with MIME `application/xml` |
| `MapPage.OnSelectionDrawnAsWritten` | react/src/pages/map/MapPage.tsx:88-135 | after a draw event the page shows the de-duplicated device ids, but the highlight layer its next key handler reads is a new empty one |
| `MapPage.ExportAfterSelectionAsWritten` | react/src/pages/map/MapPage.tsx:263-269 | as written, Ctrl+S after a draw event exports every ping, whatever was selected |
| `MapPage.AddData` | react/src/pages/map/MapPage.tsx:134 | `addData` keeps the features the layer held and appends the overlay after them |
| `MapPage.OnSelectionDrawnKeptLayer` | react/src/pages/map/MapPage.tsx:119-135 | with the layer only kept across renders, it holds the earlier features followed by the overlay, since line 134 appends and lines 127-132 only take markers off the map |
| `MapPage.KeptLayerExportsStaleSelection` | react/src/pages/map/MapPage.tsx:127-134 | with the layer only kept, deleting the polygon empties the device list, yet Ctrl+S exports the earlier selection instead of all pings |
| `MapPage.OnSelectionDrawn` | react/src/pages/map/MapPage.tsx:119-135 | with the layer kept and emptied before `addData`, it holds exactly the selected pings whatever it held before, and the list holds their de-duplicated ids |
| `MapPage.ExportAfterSelection` | react/src/pages/map/MapPage.tsx:263-269 | with that layer, Ctrl+S exports the current selection when non-empty and all pings otherwise, whatever was selected before |
| `MapPage.HandlePickDate` | react/src/pages/map/MapPage.tsx:211-220 | key `tstart` sets only the start, `tend` only the end, any other key (or none) changes nothing |
| `MapPage.PickDateDoesNotOrder` | react/src/pages/map/MapPage.tsx:211-220 | any start is stored as given with the end kept, even one after the end |
| `MapPage.PickStartAndEnd` | react/src/pages/map/MapPage.tsx:211-220 | picking a start and an end, in either order, gives exactly that window, whatever it was before |
| `MapPage.PickDateLastWins` | react/src/pages/map/MapPage.tsx:211-220 | picking the same field twice keeps only the later value |
| `MapPage.PickDateFirstKeyOnly` | react/src/pages/map/MapPage.tsx:212 | only the event's first key decides; further properties are ignored |
| `MapPage.UpdateComponent` | react/src/pages/map/MapPage.tsx:237-245 | the effect builds the map and sidebar only when no map exists, and leaves an existing page untouched |
| `MapPage.InitialisedAtMostOnce` | react/src/pages/map/MapPage.tsx:237-245 | any number of effect runs sets up the map and sidebar at most once, and exactly once from a page without a map |
| `ExportChooser.IndexOfArg` | react/src/pages/data/bulk/Export.tsx:24 | `indexOf` finds the first position of a field name, and gives -1 for an absent name or a click event |
| `ExportChooser.SplicePosition` | react/src/pages/data/bulk/Export.tsx:24 | `splice(-1, 1)` removes the last element, and any other start removes the element at that position |
| `ExportChooser.MoveOne` | react/src/pages/data/bulk/Export.tsx:23-30 | splice-and-append moves one element from source to the end of destination, conserving the multiset of both |
| `ExportChooser.Add` | react/src/pages/data/bulk/Export.tsx:23-26 | a present field leaves excluded (first occurrence) and is appended to included; an absent one moves the last excluded field instead; the fields are conserved |
| `ExportChooser.Remove` | react/src/pages/data/bulk/Export.tsx:27-30 | a present field leaves included (first occurrence) and is appended to excluded; an absent one moves the last included field instead; the fields are conserved |
| `ExportChooser.UncheckAll` | react/src/pages/data/bulk/Export.tsx:34 | included becomes empty and excluded becomes excluded followed by the old included, conserving the fields |
| `ExportChooser.UncheckAllIdempotent` | react/src/pages/data/bulk/Export.tsx:34 | unchecking all twice equals once |
| `ExportChooser.RemoveThenAdd` | react/src/pages/data/bulk/Export.tsx:23-30 | removing a field and adding it back restores excluded exactly and included up to order |
| `ExportChooser.Reset` | react/src/pages/data/bulk/Export.tsx:35-38 | included becomes the first row's field names in order and excluded becomes empty; with no rows, `Object.keys(undefined)` throws a TypeError |
| `ExportChooser.OpenEffect` | react/src/pages/data/bulk/Export.tsx:15-19 | opening the dialog performs a reset; otherwise the lists stay |
| `ExportChooser.RemoveAllOnlyWhenIncluded` | react/src/pages/data/bulk/Export.tsx:55 | the remove-all button does nothing while included is empty and unchecks all otherwise |
| `ExportChooser.RunConservesFields` | react/src/pages/data/bulk/Export.tsx:23-34 | any run of chip deletions and remove-all presses (no reset) conserves the multiset of fields and the total length of the two lists |
| `ExportChooser.StepKeepsFirstRowFields` | react/src/pages/data/bulk/Export.tsx:23-55 | each of the four transitions (either chip deletion, remove all, reset) keeps the lists holding exactly the first row's field names |
| `ExportChooser.RunKeepsFirstRowFields` | react/src/pages/data/bulk/Export.tsx:23-55 | so does any run of them, resets included |
| `ExportChooser.ResetThenRun` | react/src/pages/data/bulk/Export.tsx:23-55 | after a reset, every state the four transitions reach holds exactly the first row's field names, as many as the row has, and, as `Object.keys` gives names without repeats, neither list repeats a name |
| `ExportChooser.ReachableListsDistinct` | react/src/pages/data/bulk/Export.tsx:21 | while the lists hold the names of a row without repeated names, neither list holds a name twice |
| `JsValues.DistinctOfMultiset` | react/src/pages/data/bulk/Export.tsx:21 | a list whose values are among those of a list without repeats (as a multiset) has no repeats itself |
| `ExportChooser.ReachableIncludedChipMovesClicked` | react/src/pages/data/bulk/Export.tsx:45-47 | in every state holding the first row's names, which `ResetThenRun` shows is every state reachable after a reset, deleting an included chip with the corrected handler moves exactly the clicked field to the end of excluded |
| `ExportChooser.ReachableExcludedChipMovesClicked` | react/src/pages/data/bulk/Export.tsx:49-51 | likewise, deleting an excluded chip moves exactly the clicked field to the end of included |
| `ExportChooser.ResetDiscardsChoices` | react/src/pages/data/bulk/Export.tsx:15-38 | after any run of actions, pressing reset or reopening the dialog gives the first row's names included and nothing excluded |
| `ExportChooser.DeleteIncludedChipAsWritten` | react/src/pages/data/bulk/Export.tsx:46 | deleting any included chip moves the last included field, because the handler gets the click event |
| `ExportChooser.DeleteIncludedChipAsWrittenMovesLast` | react/src/pages/data/bulk/Export.tsx:46 | deleting the first of `species, sex` moves `sex` |
| `ExportChooser.DeleteIncludedChip` | react/src/pages/data/bulk/Export.tsx:46 | given the chip's own name, exactly the clicked field moves to the end of excluded when the names are distinct, which every reachable state meets (`ReachableIncludedChipMovesClicked`); fields are conserved |
| `ExportChooser.DeleteExcludedChipAsWritten` | react/src/pages/data/bulk/Export.tsx:50 | deleting any excluded chip moves the last excluded field |
| `ExportChooser.DeleteExcludedChipAsWrittenMovesLast` | react/src/pages/data/bulk/Export.tsx:50 | deleting the first of two excluded chips moves the second |
| `ExportChooser.DeleteExcludedChip` | react/src/pages/data/bulk/Export.tsx:50 | given the chip's own name, exactly the clicked field moves to the end of included when the names are distinct, which every reachable state meets (`ReachableExcludedChipMovesClicked`) |
| `EditCritter.CheckboxChecked` | react/src/pages/data/animals/EditCritter.tsx:99 | unchecked exactly for `false`, `'N'` and `'false'`, checked for every other value |
| `EditCritter.CheckboxIsNotTruthiness` | react/src/pages/data/animals/EditCritter.tsx:99 | null, undefined, `''` and 0 leave the box checked, and the truthy `'N'` unchecks it; among falsy values only `false` unchecks |
| `EditCritter.Coalesce` | react/src/pages/data/animals/EditCritter.tsx:47 | `??` falls back only on null and undefined |
| `EditCritter.CoalesceVersusOrElse` | react/src/pages/data/animals/EditCritter.tsx:47 | `??` and `\|\|` give different results exactly when the left value is falsy but not null or undefined, and the fallback differs from it |
| `EditCritter.Title` | react/src/pages/data/animals/EditCritter.tsx:47 | `Add a new animal` unless editing; otherwise `Editing ` with the nickname, or the animal id when the nickname is null or undefined |
| `EditCritter.TitleReadsOnlyNames` | react/src/pages/data/animals/EditCritter.tsx:47 | records agreeing on nickname and animal id get the same title, and a present nickname makes the id irrelevant |
| `EditCritter.TitleFallbacks` | react/src/pages/data/animals/EditCritter.tsx:47 | an empty nickname is kept, a null one falls back to the id, and with no record the title is `Editing undefined` |
| `EditCritter.HandleSave` | react/src/pages/data/animals/EditCritter.tsx:42-45 | the saved object is `editing` itself, with newCritter's values on its keys and the old values on keys only in editing; no other object changes |
| `EditCritter.HandleSaveIdempotent` | react/src/pages/data/animals/EditCritter.tsx:43 | saving the same form record twice changes nothing the second time |
| `EditCritter.HandleSaveMutatesEditing` | react/src/pages/data/animals/EditCritter.tsx:42-45 | a save that changes a key changes the record being edited, in place |
| `EditCritter.OfKinds` | react/src/pages/data/animals/EditCritter.tsx:61 | a filter keeps exactly the inputs of the given kinds |
| `EditCritter.OfKindsAppend` | react/src/pages/data/animals/EditCritter.tsx:60-61 | the filter keeps order: filtering a concatenation filters each part in turn |
| `EditCritter.OfKindsSingle` | react/src/pages/data/animals/EditCritter.tsx:60-61 | one input is kept exactly when its kind is wanted |
| `EditCritter.InputGroupsPartition` | react/src/pages/data/animals/EditCritter.tsx:60-97 | the text/number, select and check groups are pairwise disjoint, exclude other kinds, and with the other inputs account for every input exactly once |

## Left out

- Leaflet map, tile layers, the layer picker, draw controls and their event wiring (MapPage.tsx:146-209, 247-255) are library plumbing; only what the draw handlers compute is modelled.
- The point-in-polygon test (`@turf/points-within-polygon`, MapPage.tsx:123) is a foreign call over floating-point geometry. Its result, the list of selected features, is an input.
- KML encoding (`tokml`) and the browser download (MapPage.tsx:265-269) are foreign libraries. `Download` records which features would be encoded, the file name and the MIME type.
- `preventDefault` and `stopPropagation` on the key event (MapPage.tsx:261-262) are event plumbing.
- Coordinate formatting with `toFixed(5)` and date formatting with dayjs (MapPage.tsx:72-74, 26-27) use floating point and a date library. The popup takes the formatted strings as parameters.
- The data effects (MapPage.tsx:36-50) and `drawLatestPings` (137-144) only add GeoJSON to, or clear, Leaflet layers. They are not modelled.
- The loop that removes old highlight markers (MapPage.tsx:127-132) matches Leaflet layer options and is not modelled as such. It only takes markers off the map: the highlight layer keeps them, so it does not empty the layer that Ctrl+S reads (`OnSelectionDrawnKeptLayer`).
- The telemetry and user API hooks, their query caching, and `formatAxiosError` (common.ts:66) are network wrappers over the Axios error shape.
- App set-up, routing, the header, layouts, the user profile and styles hold no rules of their own.
- `getInputTypesOfT` and the `InputType` enumeration (components/form/form_helpers) are not part of this model. `Other` stands for every kind besides text, number, select and check.
- Rendering of the edit form, `AssignmentHistory` and the `onSave` callback are left out. `HandleSave` returns the object that is passed to `onSave`.
- The export dialog's `download` button (Export.tsx:31-33) only logs a message.
- React batching and effect timing are not modelled. Each handler is one atomic transition.
- Numbers are integers. NaN, fractions and negative zero are left out, so `===` is equality of values. A function's string form is a fixed marker, not its source text.
- The iteration order of `Object.keys` is not modelled, except that export rows give their field names in order. `ObjectCompare` visits keys in any order, and its result does not depend on that order.
- `Common.ObjectCompare`: reads own properties only. A key of o1 that o2 inherits from `Object.prototype` (`toString`, `constructor`, …) reads as undefined here, while the source reads the inherited function: `objectCompare({toString: undefined}, {})` is false in the source and true in the model. The same holds for `GetProperty` and every other read.
- `Common.ColumnToHeader`: upper-casing is modelled for ASCII letters only. Other characters are kept, whereas `toUpperCase` also maps non-ASCII letters and can lengthen a string ('ß' becomes 'SS').
- `ExportChooser.Add`: requires a non-empty excluded list. The handler is only bound to chips of that list, so the `undefined` that splicing an empty list would append is not modelled.
- `ExportChooser.Remove`: requires a non-empty included list, for the same reason.

## Findings

| source | as written | input that shows it | evidently intended | confidence | as-written member | corrected member |
|---|---|---|---|---|---|---|
| react/src/utils/common.ts:38-47 | `Object.assign(obj, {})` returns `obj` itself, so the blank keys are deleted from the caller's object, although the doc comment says the original is not modified | `{nickname: null}`: after the call the caller's object is `{}` (`OmitNullAsWrittenMutatesArgument`) | copy first (`Object.assign({}, obj)`), then delete from the copy | high; not executed | `Common.OmitNullAsWritten` | `Common.OmitNull` |
| react/src/pages/data/bulk/Export.tsx:46 | `onDelete={remove}`: the chip calls `remove` with its click event, so `included.indexOf(event)` is -1 and `splice(-1, 1)` moves the last included field | included `species, sex`; deleting the `species` chip moves `sex` (`DeleteIncludedChipAsWrittenMovesLast`) | `onDelete={() => remove(d)}`, moving the clicked field | medium (relies on the chip component passing its click event to `onDelete`); not executed | `ExportChooser.DeleteIncludedChipAsWritten` | `ExportChooser.DeleteIncludedChip` |
| react/src/pages/data/bulk/Export.tsx:50 | `onDelete={add}`: the same event argument moves the last excluded field | excluded `species, sex`; deleting the `species` chip moves `sex` (`DeleteExcludedChipAsWrittenMovesLast`) | `onDelete={() => add(d)}` | medium (as above); not executed | `ExportChooser.DeleteExcludedChipAsWritten` | `ExportChooser.DeleteExcludedChip` |
| react/src/pages/map/MapPage.tsx:88 | `selectedPings` is created anew on every render. The draw handlers registered at map set-up fill the first render's layer, while `setSelectedCollars` re-renders the page, and the key handler then reads that render's empty layer | any non-empty selection followed by Ctrl+S exports all pings (`ExportAfterSelectionAsWritten`) | one highlight layer kept across renders (for example in a ref) and emptied with `clearLayers()` before `addData`, so Ctrl+S exports the current selection. Keeping the layer alone is not enough: `addData` appends, and lines 127-132 only take markers off the map, so a deleted selection would still be exported (`KeptLayerExportsStaleSelection`) | medium; not executed | `MapPage.OnSelectionDrawnAsWritten` | `MapPage.OnSelectionDrawn` |

=== FILE: common.dfy ===
/** The record and string helpers shared by the forms (utils/common.ts). */
module Common {
  import opened JsValues

  /** `getProperty(obj, key)`: the value stored under `key`, undefined when absent. */
  function GetProperty(obj: Record, key: string): (v: Value)
    ensures key in obj ==> v == obj[key]
    ensures key !in obj ==> v.Undefined?
  {
    Read(obj, key)
  }

  /** Reading back a property: a written key gives the value written, and
      every other key gives what it gave before. */
  lemma GetPropertyAfterSet(obj: Record, key: string, v: Value, other: string)
    ensures GetProperty(obj[key := v], key) == v
    ensures other != key ==> GetProperty(obj[key := v], other) == GetProperty(obj, other)
  {
  }

  // ---------------------------------------------------------------------
  // objectCompare

  /** The per-key rule of the form comparison: the two values are strictly
      equal, or one is the empty string and the other is null. */
  predicate SameFormValue(a: Value, b: Value) {
    a == b || (a == Str("") && b == Null) || (a == Null && b == Str(""))
  }

  /** Declarative reading of the comparison: every key of the new object `o1`
      agrees with the same key of the original `o2`, where a key missing from
      `o2` reads as undefined. Keys only in `o2` play no part. */
  predicate FormEqual(o1: Record, o2: Record) {
    forall k :: k in o1 ==> SameFormValue(o1[k], Read(o2, k))
  }

  /** `objectCompare(o1, o2)`: walks the keys of `o1`, skipping a key whose
      pair is `''`/`null` in either order and answering false at the first
      key whose values differ. */
  method ObjectCompare(o1: Record, o2: Record) returns (same: bool)
    ensures same <==> FormEqual(o1, o2)
  {
    var pending := o1.Keys;
    while pending != {}
      invariant pending <= o1.Keys
      invariant forall k :: k in o1 && k !in pending ==> SameFormValue(o1[k], Read(o2, k))
      decreases pending
    {
      var key :| key in pending;
      pending := pending - {key};
      if (o1[key] == Str("") && Read(o2, key) == Null) || (o1[key] == Null && Read(o2, key) == Str("")) {
        continue;
      }
      if o1[key] != Read(o2, key) {
        return false;
      }
    }
    return true;
  }

  /** Every record compares equal to itself. */
  lemma FormEqualReflexive(o: Record)
    ensures FormEqual(o, o)
  {
  }

  /** An empty `o1` compares equal to anything, and keys that exist only in
      `o2` never change the answer. */
  lemma FormEqualIgnoresExtraKeys(o1: Record, o2: Record, extra: Record)
    requires extra.Keys !! o1.Keys
    ensures FormEqual(map[], o2)
    ensures FormEqual(o1, o2) <==> FormEqual(o1, o2 + extra)
  {
    forall k | k in o1
      ensures Read(o2, k) == Read(o2 + extra, k)
    {
    }
  }

  /** `''` and `null` are interchangeable in both directions, but `''` does not
      match a missing key (undefined), and the comparison is not symmetric. */
  lemma FormEqualBlankRules()
    ensures FormEqual(map["name" := Str("")], map["name" := Null])
    ensures FormEqual(map["name" := Null], map["name" := Str("")])
    ensures !FormEqual(map["name" := Str("")], map[])
    ensures !FormEqual(map["name" := Undefined], map["name" := Null])
    ensures FormEqual(map[], map["name" := Num(1)]) && !FormEqual(map["name" := Num(1)], map[])
  {
    assert !SameFormValue(Str(""), Read(map[], "name"));
    assert !SameFormValue(Undefined, Read(map["name" := Null], "name"));
    assert !SameFormValue(Num(1), Read(map[], "name"));
  }

  // ---------------------------------------------------------------------
  // columnToHeader

  /** `toUpperCase` on one character: ASCII lower-case letters only. */
  function UpperChar(c: char): (u: char)
    ensures 'a' <= c <= 'z' ==> u as int == c as int - 32
    ensures !('a' <= c <= 'z') ==> u == c
  {
    if 'a' <= c <= 'z' then (c as int - 32) as char else c
  }

  /** `s.replace(from, to)` with a string pattern: only the first occurrence. */
  function ReplaceFirst(s: string, from: char, to: char): (r: string)
    ensures |r| == |s|
    ensures forall i :: 0 <= i < |s| ==> r[i] == (if i == IndexOf(s, from) then to else s[i])
  {
    var i := IndexOf(s, from);
    if i < 0 then s else s[..i] + [to] + s[i + 1..]
  }

  /** `s.split(sep)`: consecutive separators give empty parts, and the
      empty string splits into one empty part. */
  function Split(s: string, sep: char): (parts: seq<string>)
    ensures |parts| >= 1
    decreases |s|
  {
    var i := IndexOf(s, sep);
    if i < 0 then [s] else [s[..i]] + Split(s[i + 1..], sep)
  }

  /** No part of a split holds the separator. */
  lemma {:induction false} SplitPartsLackSeparator(s: string, sep: char)
    ensures forall j :: 0 <= j < |Split(s, sep)| ==> sep !in Split(s, sep)[j]
    decreases |s|
  {
    var i := IndexOf(s, sep);
    SplitStep(s, sep);
    if i >= 0 {
      SplitPartsLackSeparator(s[i + 1..], sep);
      ConsLacksSeparator(Split(s, sep), s[..i], Split(s[i + 1..], sep), sep);
    }
  }

  /** Putting a part without the separator in front of parts without it. */
  lemma {:induction false} ConsLacksSeparator(parts: seq<string>, head: string, tail: seq<string>, sep: char)
    requires parts == [head] + tail && sep !in head
    requires forall j :: 0 <= j < |tail| ==> sep !in tail[j]
    ensures forall j :: 0 <= j < |parts| ==> sep !in parts[j]
  {
    forall j | 0 <= j < |parts|
      ensures sep !in parts[j]
    {
      if j > 0 {
        assert parts[j] == tail[j - 1];
      }
    }
  }

  /** One step of `Split`, at the first separator if there is one. */
  lemma {:induction false} SplitStep(s: string, sep: char)
    ensures IndexOf(s, sep) < 0 ==> Split(s, sep) == [s]
    ensures IndexOf(s, sep) >= 0 ==>
              Split(s, sep) == [s[..IndexOf(s, sep)]] + Split(s[IndexOf(s, sep) + 1..], sep)
  {
  }

  lemma JoinCons(head: string, tail: seq<string>, sep: string)
    requires |tail| >= 1
    ensures Join([head] + tail, sep) == head + sep + Join(tail, sep)
  {
    assert ([head] + tail)[1..] == tail;
  }

  lemma SliceAround(s: string, i: int)
    requires 0 <= i < |s|
    ensures s[..i] + [s[i]] + s[i + 1..] == s
  {
  }

  /** Splitting on a separator and joining with it gives the string back. */
  lemma {:induction false} JoinSplit(s: string, sep: char)
    ensures Join(Split(s, sep), [sep]) == s
    decreases |s|
  {
    var i := IndexOf(s, sep);
    if i >= 0 {
      var head, rest := s[..i], s[i + 1..];
      var tail := Split(rest, sep);
      calc {
        Join(Split(s, sep), [sep]);
        { SplitStep(s, sep); }
        Join([head] + tail, [sep]);
        { JoinCons(head, tail, [sep]); }
        head + [sep] + Join(tail, [sep]);
        { JoinSplit(rest, sep); }
        head + [sep] + rest;
        { SliceAround(s, i); }
        s;
      }
    }
  }

  /** `a.charAt(0).toUpperCase() + a.slice(1)`. */
  function Capitalize(w: string): (r: string)
    ensures |r| == |w|
    ensures |w| > 0 ==> r[0] == UpperChar(w[0]) && r[1..] == w[1..]
  {
    if |w| == 0 then w else [UpperChar(w[0])] + w[1..]
  }

  function CapitalizeAll(words: seq<string>): (r: seq<string>)
    ensures |r| == |words|
    ensures forall i :: 0 <= i < |words| ==> r[i] == Capitalize(words[i])
  {
    if |words| == 0 then [] else [Capitalize(words[0])] + CapitalizeAll(words[1..])
  }

  /** Position `i` of `t` begins a space-separated word. */
  predicate WordStart(t: string, i: int)
    requires 0 <= i < |t|
  {
    i == 0 || t[i - 1] == ' '
  }

  /** The characterisation of capitalising every word: each character that
      begins a word is upper-cased, every other character is kept. */
  function CapitalizeWordStarts(t: string): (r: string)
    ensures |r| == |t|
    ensures forall i :: 0 <= i < |t| ==> r[i] == if WordStart(t, i) then UpperChar(t[i]) else t[i]
  {
    seq(|t|, i requires 0 <= i < |t| => if WordStart(t, i) then UpperChar(t[i]) else t[i])
  }

  /** Without a space the whole string is one word. */
  lemma CapitalizeOneWord(t: string)
    requires ' ' !in t
    ensures Capitalize(t) == CapitalizeWordStarts(t)
  {
    forall j | 0 < j < |t|
      ensures Capitalize(t)[j] == CapitalizeWordStarts(t)[j]
    {
      assert t[j - 1] in t;
    }
  }

  /** Before the first space, capitalising word starts is capitalising the
      one word there. */
  lemma {:induction false} CapitalizeBeforeFirstSpace(t: string, i: int, j: int)
    requires 0 <= j < i < |t| && ' ' !in t[..i]
    ensures CapitalizeWordStarts(t)[j] == Capitalize(t[..i])[j]
  {
    if j > 0 {
      assert t[..i][j - 1] in t[..i];
    }
  }

  /** After the first space `t[i]`, position `j` of `t` is position
      `j - i - 1` of the rest, and starts a word in one exactly when it does
      in the other. */
  lemma {:induction false} CapitalizeAfterFirstSpace(t: string, i: int, j: int)
    requires 0 <= i < j < |t| && t[i] == ' '
    ensures CapitalizeWordStarts(t)[j] == CapitalizeWordStarts(t[i + 1..])[j - i - 1]
  {
    var rest, k := t[i + 1..], j - i - 1;
    assert rest[k] == t[j];
    assert WordStart(rest, k) == WordStart(t, j) by {
      if k > 0 {
        assert rest[k - 1] == t[j - 1];
      }
    }
    assert CapitalizeWordStarts(t)[j] == if WordStart(t, j) then UpperChar(t[j]) else t[j];
    assert CapitalizeWordStarts(rest)[k] == if WordStart(rest, k) then UpperChar(rest[k]) else rest[k];
  }

  /** Capitalising word starts around the first space `t[i]`. */
  lemma {:induction false} CapitalizeAtFirstSpace(t: string, i: int)
    requires 0 <= i < |t| && t[i] == ' ' && ' ' !in t[..i]
    ensures CapitalizeWordStarts(t) == Capitalize(t[..i]) + " " + CapitalizeWordStarts(t[i + 1..])
  {
    var head, rest := t[..i], t[i + 1..];
    var capHead, capRest := Capitalize(head), CapitalizeWordStarts(rest);
    var rhs := capHead + " " + capRest;
    assert |rhs| == |t|;
    forall j | 0 <= j < |t|
      ensures rhs[j] == CapitalizeWordStarts(t)[j]
    {
      if j < i {
        assert rhs[j] == capHead[j];
        CapitalizeBeforeFirstSpace(t, i, j);
      } else if j > i {
        assert rhs[j] == capRest[j - i - 1];
        CapitalizeAfterFirstSpace(t, i, j);
      }
    }
  }

  lemma CapitalizeAllCons(w: string, ws: seq<string>)
    ensures CapitalizeAll([w] + ws) == [Capitalize(w)] + CapitalizeAll(ws)
  {
    assert ([w] + ws)[1..] == ws;
  }

  /** Without a space, the split is the string alone. */
  lemma {:induction false} SplitCapitalizeJoinOneWord(t: string)
    requires IndexOf(t, ' ') < 0
    ensures Join(CapitalizeAll(Split(t, ' ')), " ") == CapitalizeWordStarts(t)
  {
    calc {
      Join(CapitalizeAll(Split(t, ' ')), " ");
      { SplitStep(t, ' '); }
      Join(CapitalizeAll([t]), " ");
      { assert CapitalizeAll([t]) == [Capitalize(t)]; }
      Capitalize(t);
      { CapitalizeOneWord(t); }
      CapitalizeWordStarts(t);
    }
  }

  /** Capitalising and joining a list of words handles its first word and
      then the others on their own. */
  lemma {:induction false} JoinCapitalizeCons(parts: seq<string>, head: string, tail: seq<string>)
    requires parts == [head] + tail && |tail| >= 1
    ensures Join(CapitalizeAll(parts), " ") == Capitalize(head) + " " + Join(CapitalizeAll(tail), " ")
  {
    CapitalizeAllCons(head, tail);
    JoinCons(Capitalize(head), CapitalizeAll(tail), " ");
  }

  /** Splitting at the first space `t[i]`, capitalising and joining handles
      the first word and then the rest of the string on its own. */
  lemma {:induction false} SplitCapitalizeJoinUnfold(t: string, i: int)
    requires 0 <= i < |t| && i == IndexOf(t, ' ')
    ensures Join(CapitalizeAll(Split(t, ' ')), " ")
            == Capitalize(t[..i]) + " " + Join(CapitalizeAll(Split(t[i + 1..], ' ')), " ")
  {
    SplitStep(t, ' ');
    JoinCapitalizeCons(Split(t, ' '), t[..i], Split(t[i + 1..], ' '));
  }

  /** Split, capitalise each word and join back is the same as upper-casing
      the first character of every word in place. */
  lemma {:induction false} SplitCapitalizeJoin(t: string)
    ensures Join(CapitalizeAll(Split(t, ' ')), " ") == CapitalizeWordStarts(t)
    decreases |t|
  {
    var i := IndexOf(t, ' ');
    if i < 0 {
      SplitCapitalizeJoinOneWord(t);
    } else {
      SplitCapitalizeJoinUnfold(t, i);
      SplitCapitalizeJoin(t[i + 1..]);
      CapitalizeAtFirstSpace(t, i);
    }
  }

  /** `columnToHeader(col)`: the first `_` becomes a space, then the first
      character of every space-separated word is upper-cased. Nothing else
      changes and the length is kept. */
  function ColumnToHeader(col: string): (h: string)
    ensures |h| == |col|
    ensures var t := ReplaceFirst(col, '_', ' ');
            forall i :: 0 <= i < |col| ==> h[i] == if WordStart(t, i) then UpperChar(t[i]) else t[i]
  {
    var t := ReplaceFirst(col, '_', ' ');
    SplitCapitalizeJoin(t);
    Join(CapitalizeAll(Split(t, ' ')), " ")
  }

  /** Only the first underscore turns into a space: every later one is kept
      as it is, and no other character becomes a space. */
  lemma ColumnToHeaderKeepsLaterUnderscores(col: string, i: int)
    requires 0 <= i < |col|
    ensures col[i] == '_' && i != IndexOf(col, '_') ==> ColumnToHeader(col)[i] == '_'
    ensures ColumnToHeader(col)[i] == ' ' <==> col[i] == ' ' || i == IndexOf(col, '_')
  {
  }

  // ---------------------------------------------------------------------
  // omitNull and removeProps

  /** The values `omitNull` drops: null, undefined and the empty string. */
  predicate Blank(v: Value) {
    v == Null || v == Undefined || v == Str("")
  }

  /** The record left after deleting every blank-valued key. */
  function WithoutBlanks(rec: Record): (r: Record)
    ensures r.Keys == set k | k in rec && !Blank(rec[k])
    ensures forall k :: k in r ==> r[k] == rec[k]
  {
    map k | k in rec && !Blank(rec[k]) :: rec[k]
  }

  /** `omitNull(obj)` as written: `Object.assign(obj, {})` returns `obj`
      itself, so the blank keys are deleted from the caller's object and the
      returned "copy" is that same object. */
  function OmitNullAsWritten(h: Heap, obj: Ref): (res: (Heap, Ref))
    requires h.Valid() && obj in h.objects
    ensures res.0.Valid()
    ensures res.1 == obj
    ensures res.0.objects.Keys == h.objects.Keys
    ensures res.0.objects[obj].Keys == set k | k in h.objects[obj] && !Blank(h.objects[obj][k])
    ensures forall k :: k in res.0.objects[obj] ==> res.0.objects[obj][k] == h.objects[obj][k]
    ensures forall r :: r in h.objects && r != obj ==> res.0.objects[r] == h.objects[r]
  {
    var (h1, copy) := Assign(h, obj, map[]);
    (Store(h1, copy, WithoutBlanks(h1.objects[copy])), copy)
  }

  /** Calling the as-written `omitNull` changes its argument whenever that
      argument holds a blank value, against its own doc comment. */
  lemma OmitNullAsWrittenMutatesArgument()
    ensures var h := Heap(map[0 := map["nickname" := Null]], 1);
            var (h', _) := OmitNullAsWritten(h, 0);
            h'.objects[0] != h.objects[0]
  {
    var h := Heap(map[0 := map["nickname" := Null]], 1);
    var (h', _) := OmitNullAsWritten(h, 0);
    assert "nickname" !in h'.objects[0];
  }

  /** `omitNull` as its doc comment promises: the blank keys are dropped from
      a fresh copy (`Object.assign({}, obj)`), and the argument is untouched. */
  function OmitNull(h: Heap, obj: Ref): (res: (Heap, Ref))
    requires h.Valid() && obj in h.objects
    ensures res.0.Valid()
    ensures res.1 !in h.objects && res.1 in res.0.objects
    ensures forall r :: r in h.objects ==> r in res.0.objects && res.0.objects[r] == h.objects[r]
    ensures res.0.objects[res.1].Keys == set k | k in h.objects[obj] && !Blank(h.objects[obj][k])
    ensures forall k :: k in res.0.objects[res.1] ==> res.0.objects[res.1][k] == h.objects[obj][k]
  {
    var (h1, copy) := Alloc(h, map[]);
    var (h2, _) := Assign(h1, copy, h.objects[obj]);
    (Store(h2, copy, WithoutBlanks(h2.objects[copy])), copy)
  }

  /** The keys left after `delete copy[p]` for each `p` in turn. */
  function DeleteAll(rec: Record, props: seq<string>): (r: Record)
    ensures r.Keys == rec.Keys - set p | p in props
    ensures forall k :: k in r ==> r[k] == rec[k]
    decreases |props|
  {
    if |props| == 0 then rec else DeleteAll(rec - {props[0]}, props[1..])
  }

  /** After the deletions a listed key reads as undefined, and every other
      key reads as it did before. */
  lemma GetPropertyAfterDeleteAll(rec: Record, props: seq<string>, key: string)
    ensures GetProperty(DeleteAll(rec, props), key) == if key in props then Undefined else GetProperty(rec, key)
  {
  }

  /** `removeProps(obj, props)`: a shallow copy (`{...obj}`) without the listed
      keys. The copy is a new object and `obj` itself is left as it was. */
  function RemoveProps(h: Heap, obj: Ref, props: seq<string>): (res: (Heap, Ref))
    requires h.Valid() && obj in h.objects
    ensures res.0.Valid()
    ensures res.1 !in h.objects && res.1 in res.0.objects
    ensures forall r :: r in h.objects ==> r in res.0.objects && res.0.objects[r] == h.objects[r]
    ensures res.0.objects[res.1].Keys == h.objects[obj].Keys - set p | p in props
    ensures forall k :: k in res.0.objects[res.1] ==> res.0.objects[res.1][k] == h.objects[obj][k]
  {
    var (h1, copy) := Alloc(h, h.objects[obj]);
    (Store(h1, copy, DeleteAll(h1.objects[copy], props)), copy)
  }

  // ---------------------------------------------------------------------
  // isValidToast

  /** `isValidToast(onPost)`: the callback is usable exactly when it is a function. */
  function IsValidToast(onPost: Value): (ok: bool)
    ensures ok <==> TypeOf(onPost) == "function"
  {
    onPost.Fn?
  }
}

=== FILE: edit_critter.dfy ===
/** The rules of the animal edit form (pages/data/animals/EditCritter.tsx):
    how a checkbox reads its value, the dialog title, the record merge on
    save, and how the form's inputs are split into three groups. */
module EditCritter {
  import opened JsValues

  // ---------------------------------------------------------------------
  // Checkboxes

  /** The three stored values that mean "no". */
  predicate IsNo(v: Value) {
    v == Bool(false) || v == Str("N") || v == Str("false")
  }

  /** The `checked` state of a check-box input: unchecked for `false`, `'N'`
      and `'false'`, checked for every other value. */
  function CheckboxChecked(v: Value): (checked: bool)
    ensures !checked <==> IsNo(v)
  {
    if v == Bool(false) || v == Str("N") || v == Str("false") then false else true
  }

  /** The coercion is not JavaScript truthiness: null, undefined, `''` and
      `0` all leave the box checked, while the truthy `'N'` unchecks it. */
  lemma CheckboxIsNotTruthiness()
    ensures CheckboxChecked(Null) && CheckboxChecked(Undefined)
    ensures CheckboxChecked(Str("")) && CheckboxChecked(Num(0))
    ensures !CheckboxChecked(Str("N")) && Truthy(Str("N"))
    ensures forall v :: !Truthy(v) && !CheckboxChecked(v) ==> v == Bool(false)
  {
  }

  // ---------------------------------------------------------------------
  // Title

  /** `editing?.field`: undefined when there is no record being edited. */
  function OptionalRead(editing: Option<Record>, key: string): (v: Value)
    ensures editing.None? ==> v == Undefined
    ensures editing.Some? ==> v == Read(editing.value, key)
  {
    match editing
    case None => Undefined
    case Some(rec) => Read(rec, key)
  }

  /** `a ?? b`: falls back only on null and undefined. */
  function Coalesce(a: Value, b: Value): (r: Value)
    ensures !Nullish(a) ==> r == a
    ensures Nullish(a) ==> r == b
  {
    if Nullish(a) then b else a
  }

  /** `??` and `||` part ways exactly on the falsy values that are not null
      or undefined (`false`, `0`, `''`), and only when the fallback differs. */
  lemma CoalesceVersusOrElse(a: Value, b: Value)
    ensures Coalesce(a, b) != OrElse(a, b) <==> !Nullish(a) && !Truthy(a) && a != b
  {
  }

  /** The dialog title: "Editing" and the nickname (or, when that is null or
      undefined, the animal id) in edit mode, "Add a new animal" otherwise. */
  function Title(isEdit: Value, editing: Option<Record>): (t: string)
    ensures !Truthy(isEdit) ==> t == "Add a new animal"
    ensures Truthy(isEdit) && !Nullish(OptionalRead(editing, "nickname")) ==>
              t == "Editing " + ToString(OptionalRead(editing, "nickname"))
    ensures Truthy(isEdit) && Nullish(OptionalRead(editing, "nickname")) ==>
              t == "Editing " + ToString(OptionalRead(editing, "animal_id"))
  {
    if Truthy(isEdit) then
      "Editing " + ToString(Coalesce(OptionalRead(editing, "nickname"), OptionalRead(editing, "animal_id")))
    else "Add a new animal"
  }

  /** The title depends on nothing but the edit flag's truthiness, the
      nickname and the animal id: two records that agree on those two
      fields get the same title. */
  lemma TitleReadsOnlyNames(isEdit: Value, r1: Record, r2: Record)
    requires Read(r1, "nickname") == Read(r2, "nickname") && Read(r1, "animal_id") == Read(r2, "animal_id")
    ensures Title(isEdit, Some(r1)) == Title(isEdit, Some(r2))
    ensures !Nullish(Read(r1, "nickname")) ==>
              Title(isEdit, Some(r1)) == Title(isEdit, Some(r1["animal_id" := Undefined]))
  {
  }

  /** An empty nickname is kept (`??` is not `||`), and with no record at all
      the title reads "Editing undefined". */
  lemma TitleFallbacks(id: Value)
    ensures Title(Bool(true), Some(map["nickname" := Str(""), "animal_id" := id])) == "Editing "
    ensures Title(Bool(true), Some(map["nickname" := Null, "animal_id" := Str("A1")])) == "Editing A1"
    ensures Title(Bool(true), None) == "Editing undefined"
    ensures Title(Undefined, Some(map["nickname" := Str("Bob")])) == "Add a new animal"
  {
  }

  // ---------------------------------------------------------------------
  // Save

  /** `handleSave(newCritter)`: `Object.assign(editing, newCritter)` merges the
      form's record into the record being edited and hands that same object
      on to `onSave`. Keys only in `editing` keep their values, every key of
      `newCritter` takes its new value, and `editing` is changed in place. */
  function HandleSave(h: Heap, editing: Ref, newCritter: Record): (res: (Heap, Ref))
    requires h.Valid() && editing in h.objects
    ensures res.0.Valid()
    ensures res.1 == editing
    ensures res.0.objects.Keys == h.objects.Keys
    ensures forall r :: r in h.objects && r != editing ==> res.0.objects[r] == h.objects[r]
    ensures res.0.objects[editing].Keys == h.objects[editing].Keys + newCritter.Keys
    ensures forall k :: k in newCritter ==> res.0.objects[editing][k] == newCritter[k]
    ensures forall k :: k in h.objects[editing] && k !in newCritter ==>
              res.0.objects[editing][k] == h.objects[editing][k]
  {
    Assign(h, editing, newCritter)
  }

  /** Saving twice with the same form record changes nothing more. */
  lemma HandleSaveIdempotent(h: Heap, editing: Ref, newCritter: Record)
    requires h.Valid() && editing in h.objects
    ensures var (h1, _) := HandleSave(h, editing, newCritter);
            HandleSave(h1, editing, newCritter).0 == h1
  {
    var (h1, _) := HandleSave(h, editing, newCritter);
    var h2 := HandleSave(h1, editing, newCritter).0;
    assert h2.objects[editing] == h1.objects[editing];
    assert h2.objects == h1.objects;
  }

  /** The record being edited is itself changed by a save that sets one of
      its keys to a new value. */
  lemma HandleSaveMutatesEditing(h: Heap, editing: Ref, key: string, v: Value)
    requires h.Valid() && editing in h.objects
    requires key in h.objects[editing] && h.objects[editing][key] != v
    ensures HandleSave(h, editing, map[key := v]).0.objects[editing] != h.objects[editing]
  {
    assert HandleSave(h, editing, map[key := v]).0.objects[editing][key] == v;
  }

  // ---------------------------------------------------------------------
  // Input groups

  /** The input kinds the form distinguishes; `Other` stands for every
      further kind the form helpers may produce. */
  datatype InputType = Text | Number | Select | Check | Other

  datatype FormInput = FormInput(key: string, value: Value, kind: InputType)

  /** `inputs.filter((f) => kinds has f.type)`, keeping order. */
  function OfKinds(inputs: seq<FormInput>, kinds: set<InputType>): (r: seq<FormInput>)
    ensures |r| <= |inputs|
    ensures forall x :: x in r <==> x in inputs && x.kind in kinds
  {
    if |inputs| == 0 then []
    else (if inputs[0].kind in kinds then [inputs[0]] else []) + OfKinds(inputs[1..], kinds)
  }

  /** A single input is kept exactly when its kind is wanted. */
  lemma OfKindsSingle(x: FormInput, kinds: set<InputType>)
    ensures OfKinds([x], kinds) == if x.kind in kinds then [x] else []
  {
    assert [x][1..] == [];
  }

  /** The filter keeps order: filtering a concatenation filters each part in
      turn. With `OfKindsSingle` this makes the filtered list the inputs of
      the given kinds in their original order. */
  lemma {:induction false} OfKindsAppend(a: seq<FormInput>, b: seq<FormInput>, kinds: set<InputType>)
    ensures OfKinds(a + b, kinds) == OfKinds(a, kinds) + OfKinds(b, kinds)
    decreases |a|
  {
    if |a| == 0 {
      assert a + b == b;
    } else {
      var h := if a[0].kind in kinds then [a[0]] else [];
      calc {
        OfKinds(a + b, kinds);
      == { assert (a + b)[0] == a[0]; assert (a + b)[1..] == a[1..] + b; }
        h + OfKinds(a[1..] + b, kinds);
      == { OfKindsAppend(a[1..], b, kinds); }
        h + (OfKinds(a[1..], kinds) + OfKinds(b, kinds));
      ==
        (h + OfKinds(a[1..], kinds)) + OfKinds(b, kinds);
      }
    }
  }

  const TextKinds: set<InputType> := {Text, Number}
  const SelectKinds: set<InputType> := {Select}
  const CheckKinds: set<InputType> := {Check}

  /** The "General Information" group: text and number inputs. */
  function TextInputs(inputs: seq<FormInput>): seq<FormInput> {
    OfKinds(inputs, TextKinds)
  }

  /** The "Group Information" group: code selects. */
  function SelectInputs(inputs: seq<FormInput>): seq<FormInput> {
    OfKinds(inputs, SelectKinds)
  }

  /** The "Individual Characteristics" group: check boxes. */
  function CheckInputs(inputs: seq<FormInput>): seq<FormInput> {
    OfKinds(inputs, CheckKinds)
  }

  /** Filtering by two disjoint kind sets splits the inputs between them. */
  lemma {:induction false} OfKindsSplit(inputs: seq<FormInput>, a: set<InputType>, b: set<InputType>)
    requires a !! b
    ensures multiset(OfKinds(inputs, a)) + multiset(OfKinds(inputs, b)) == multiset(OfKinds(inputs, a + b))
    decreases |inputs|
  {
    if |inputs| > 0 {
      OfKindsSplit(inputs[1..], a, b);
    }
  }

  /** Filtering by every kind keeps every input. */
  lemma {:induction false} OfAllKinds(inputs: seq<FormInput>)
    ensures OfKinds(inputs, {Text, Number, Select, Check, Other}) == inputs
    decreases |inputs|
  {
    if |inputs| > 0 {
      OfAllKinds(inputs[1..]);
      assert inputs[0].kind in {Text, Number, Select, Check, Other} by {
        match inputs[0].kind
        case Text => case Number => case Select => case Check => case Other =>
      }
      assert [inputs[0]] + inputs[1..] == inputs;
    }
  }

  /** The three groups are pairwise disjoint, none holds an input of another
      kind, and together with those other inputs they account for every
      input exactly once. */
  lemma {:induction false} InputGroupsPartition(inputs: seq<FormInput>)
    ensures forall x :: x in TextInputs(inputs) ==> x !in SelectInputs(inputs) && x !in CheckInputs(inputs)
    ensures forall x :: x in SelectInputs(inputs) ==> x !in CheckInputs(inputs)
    ensures forall x :: x in inputs && x.kind == Other ==>
              x !in TextInputs(inputs) && x !in SelectInputs(inputs) && x !in CheckInputs(inputs)
    ensures multiset(TextInputs(inputs)) + multiset(SelectInputs(inputs)) + multiset(CheckInputs(inputs))
            + multiset(OfKinds(inputs, {Other})) == multiset(inputs)
  {
    OfKindsSplit(inputs, TextKinds, SelectKinds);
    OfKindsSplit(inputs, TextKinds + SelectKinds, CheckKinds);
    OfKindsSplit(inputs, TextKinds + SelectKinds + CheckKinds, {Other});
    assert TextKinds + SelectKinds + CheckKinds + {Other} == {Text, Number, Select, Check, Other};
    OfAllKinds(inputs);
  }
}

=== FILE: export_chooser.dfy ===
/** The field chooser of the bulk export dialog (pages/data/bulk/Export.tsx):
    two lists of field names, those included in the export and those
    excluded from it, moved between by deleting chips. */
module ExportChooser {
  import opened JsValues

  datatype Chooser = Chooser(included: seq<string>, excluded: seq<string>)

  /** All field names the chooser holds, wherever they are. */
  function Fields(s: Chooser): multiset<string> {
    multiset(s.included) + multiset(s.excluded)
  }

  /** What a handler is called with: a field name, or the click event that a
      chip's `onDelete` passes. */
  datatype Arg = FieldName(name: string) | ClickEvent

  /** `list.indexOf(item)`: an event is never strictly equal to a string. */
  function IndexOfArg(list: seq<string>, item: Arg): (pos: int)
    ensures -1 <= pos < |list|
    ensures pos >= 0 <==> item.FieldName? && item.name in list
    ensures 0 <= pos < |list| ==> item.FieldName? && list[pos] == item.name && item.name !in list[..pos]
  {
    match item
    case FieldName(n) => IndexOf(list, n)
    case ClickEvent => -1
  }

  /** The position `splice(start, 1)` removes from a non-empty list: a
      negative start counts back from the end. */
  function SplicePosition(len: nat, start: int): (k: nat)
    requires len > 0 && -1 <= start < len
    ensures k < len
    ensures start == -1 ==> k == len - 1
    ensures start >= 0 ==> k == start
  {
    if start < 0 then len + start else start
  }

  /** `src.splice(src.indexOf(item), 1)[0]` followed by appending the removed
      element to `dst`. The result is the new `(src, dst)`. */
  function MoveOne(src: seq<string>, dst: seq<string>, item: Arg): (res: (seq<string>, seq<string>))
    requires |src| > 0
    ensures multiset(res.0) + multiset(res.1) == multiset(src) + multiset(dst)
    ensures |res.0| == |src| - 1 && |res.1| == |dst| + 1
    ensures res.1[..|dst|] == dst
    ensures var k := SplicePosition(|src|, IndexOfArg(src, item));
            res.1[|dst|] == src[k] && res.0 == src[..k] + src[k + 1..]
  {
    var k := SplicePosition(|src|, IndexOfArg(src, item));
    assert src == src[..k] + [src[k]] + src[k + 1..];
    (src[..k] + src[k + 1..], dst + [src[k]])
  }

  /** `add(item)`: moves a field from the excluded list to the end of the
      included one. The handler is bound only to chips of the excluded list,
      so that list is not empty when it runs. */
  function Add(s: Chooser, item: Arg): (r: Chooser)
    requires |s.excluded| > 0
    ensures Fields(r) == Fields(s)
    ensures |r.included| == |s.included| + 1 && r.included[..|s.included|] == s.included
    ensures item.FieldName? && item.name in s.excluded ==>
              var i := IndexOf(s.excluded, item.name);
              r.included[|s.included|] == item.name && r.excluded == s.excluded[..i] + s.excluded[i + 1..]
    ensures !(item.FieldName? && item.name in s.excluded) ==>
              r.included[|s.included|] == s.excluded[|s.excluded| - 1]
              && r.excluded == s.excluded[..|s.excluded| - 1]
  {
    var moved := MoveOne(s.excluded, s.included, item);
    assert multiset(moved.1) + multiset(moved.0) == multiset(moved.0) + multiset(moved.1);
    Chooser(moved.1, moved.0)
  }

  /** `remove(item)`: moves a field from the included list to the end of the
      excluded one. The handler is bound only to chips of the included list,
      so that list is not empty when it runs. */
  function Remove(s: Chooser, item: Arg): (r: Chooser)
    requires |s.included| > 0
    ensures Fields(r) == Fields(s)
    ensures |r.excluded| == |s.excluded| + 1 && r.excluded[..|s.excluded|] == s.excluded
    ensures item.FieldName? && item.name in s.included ==>
              var i := IndexOf(s.included, item.name);
              r.excluded[|s.excluded|] == item.name && r.included == s.included[..i] + s.included[i + 1..]
    ensures !(item.FieldName? && item.name in s.included) ==>
              r.excluded[|s.excluded|] == s.included[|s.included| - 1]
              && r.included == s.included[..|s.included| - 1]
  {
    var moved := MoveOne(s.included, s.excluded, item);
    Chooser(moved.0, moved.1)
  }

  /** `uncheckAll()`: every included field goes, in order, to the end of the
      excluded list. */
  function UncheckAll(s: Chooser): (r: Chooser)
    ensures Fields(r) == Fields(s)
    ensures r.included == [] && r.excluded == s.excluded + s.included
  {
    Chooser([], s.excluded + s.included)
  }

  /** Unchecking everything twice is the same as once. */
  lemma UncheckAllIdempotent(s: Chooser)
    ensures UncheckAll(UncheckAll(s)) == UncheckAll(s)
  {
    assert UncheckAll(s).excluded + [] == UncheckAll(s).excluded;
  }

  /** Two choosers with the same fields and the same excluded list include
      the same fields, up to order. */
  lemma SameIncludedFields(a: Chooser, b: Chooser)
    requires Fields(a) == Fields(b) && a.excluded == b.excluded
    ensures multiset(a.included) == multiset(b.included)
  {
    calc {
      multiset(a.included);
      Fields(a) - multiset(a.excluded);
      Fields(b) - multiset(b.excluded);
      multiset(b.included);
    }
  }

  /** Removing a field and adding it back returns every field to its list;
      only the field's position within the included list may change. */
  lemma RemoveThenAdd(s: Chooser, f: string)
    requires f in s.included && f !in s.excluded
    ensures var r := Add(Remove(s, FieldName(f)), FieldName(f));
            r.excluded == s.excluded && multiset(r.included) == multiset(s.included)
  {
    var mid := Remove(s, FieldName(f));
    var r := Add(mid, FieldName(f));
    var n := |s.excluded|;
    assert r.excluded == s.excluded by {
      assert mid.excluded == s.excluded + [f];
      IndexOfAppend(s.excluded, f, f);
      assert r.excluded == mid.excluded[..n] + mid.excluded[n + 1..];
      assert mid.excluded[..n] == s.excluded && mid.excluded[n + 1..] == [];
    }
    SameIncludedFields(r, s);
  }

  /** What a call to `reset` does: the new lists, or the `TypeError` that
      `Object.keys(undefined)` throws when there is no first row. */
  datatype Outcome = Done(state: Chooser) | ThrowsTypeError

  /** `reset()`: the included list becomes the field names of the first data
      row (`Object.keys(data[0])`, given here as each row's names in order),
      and the excluded list becomes empty. */
  function Reset(data: seq<seq<string>>): (o: Outcome)
    ensures o.ThrowsTypeError? <==> |data| == 0
    ensures o.Done? ==> o.state.included == data[0] && o.state.excluded == []
  {
    if |data| == 0 then ThrowsTypeError else Done(Chooser(data[0], []))
  }

  /** The effect on `open`: opening the dialog resets it; closing it keeps
      the lists as they are. */
  function OpenEffect(s: Chooser, open: bool, data: seq<seq<string>>): (o: Outcome)
    ensures open ==> o == Reset(data)
    ensures !open ==> o == Done(s)
  {
    if open then Reset(data) else Done(s)
  }

  /** The "remove all" button is disabled when nothing is included. */
  predicate RemoveAllEnabled(s: Chooser) {
    |s.included| != 0
  }

  /** A user action on the open dialog. */
  datatype Action = DeleteIncluded(arg: Arg) | DeleteExcluded(arg: Arg) | PressRemoveAll | PressReset

  /** An action has an effect only when the chip or button it needs is shown;
      the reset button is always shown. */
  predicate Enabled(s: Chooser, a: Action) {
    match a
    case DeleteIncluded(_) => |s.included| > 0
    case DeleteExcluded(_) => |s.excluded| > 0
    case PressRemoveAll => RemoveAllEnabled(s)
    case PressReset => true
  }

  /** One action on the dialog showing the rows `data`. Pressing reset with
      no rows throws before either list is set, so the lists stay. */
  function Step(s: Chooser, a: Action, data: seq<seq<string>>): Chooser {
    if !Enabled(s, a) then s
    else match a
      case DeleteIncluded(arg) => Remove(s, arg)
      case DeleteExcluded(arg) => Add(s, arg)
      case PressRemoveAll => UncheckAll(s)
      case PressReset =>
        match Reset(data)
        case Done(r) => r
        case ThrowsTypeError => s
  }

  /** The "remove all" button does nothing while the included list is empty
      and unchecks everything otherwise. */
  lemma RemoveAllOnlyWhenIncluded(s: Chooser, data: seq<seq<string>>)
    ensures |s.included| == 0 ==> Step(s, PressRemoveAll, data) == s
    ensures |s.included| > 0 ==> Step(s, PressRemoveAll, data) == Chooser([], s.excluded + s.included)
  {
  }

  function Run(s: Chooser, actions: seq<Action>, data: seq<seq<string>>): Chooser
    decreases |actions|
  {
    if |actions| == 0 then s else Run(Step(s, actions[0], data), actions[1..], data)
  }

  /** The lists' total length is the size of the fields they hold. */
  lemma FieldsSize(s: Chooser)
    ensures |Fields(s)| == |s.included| + |s.excluded|
  {
    calc {
      |Fields(s)|;
      |multiset(s.included)| + |multiset(s.excluded)|;
      |s.included| + |s.excluded|;
    }
  }

  /** Conservation: a run of chip deletions and "remove all" presses keeps
      every field name, each as often as before, so the total length of the
      two lists never changes. */
  lemma {:induction false} RunConservesFields(s: Chooser, actions: seq<Action>, data: seq<seq<string>>)
    requires forall i :: 0 <= i < |actions| ==> !actions[i].PressReset?
    ensures Fields(Run(s, actions, data)) == Fields(s)
    ensures |Run(s, actions, data).included| + |Run(s, actions, data).excluded| == |s.included| + |s.excluded|
    decreases |actions|
  {
    if |actions| > 0 {
      assert !actions[0].PressReset?;
      assert forall i :: 0 <= i < |actions[1..]| ==> actions[1..][i] == actions[i + 1];
      RunConservesFields(Step(s, actions[0], data), actions[1..], data);
    }
    FieldsSize(s);
    FieldsSize(Run(s, actions, data));
  }

  /** Each of the four transitions keeps the lists holding exactly the field
      names of the first row, once they hold them. */
  lemma StepKeepsFirstRowFields(s: Chooser, a: Action, data: seq<seq<string>>)
    requires |data| > 0 && Fields(s) == multiset(data[0])
    ensures Fields(Step(s, a, data)) == multiset(data[0])
  {
  }

  /** So does any run of them, resets included. */
  lemma {:induction false} RunKeepsFirstRowFields(s: Chooser, actions: seq<Action>, data: seq<seq<string>>)
    requires |data| > 0 && Fields(s) == multiset(data[0])
    ensures Fields(Run(s, actions, data)) == multiset(data[0])
    decreases |actions|
  {
    if |actions| > 0 {
      StepKeepsFirstRowFields(s, actions[0], data);
      RunKeepsFirstRowFields(Step(s, actions[0], data), actions[1..], data);
    }
  }

  /** From a reset dialog, every reachable state holds the first row's
      field names and nothing else, as many as the row has. */
  lemma {:induction false} ResetThenRun(data: seq<seq<string>>, actions: seq<Action>)
    requires |data| > 0
    ensures Fields(Run(Reset(data).state, actions, data)) == multiset(data[0])
    ensures |Run(Reset(data).state, actions, data).included| + |Run(Reset(data).state, actions, data).excluded|
            == |data[0]|
    ensures Distinct(data[0]) ==>
              Distinct(Run(Reset(data).state, actions, data).included)
              && Distinct(Run(Reset(data).state, actions, data).excluded)
  {
    RunKeepsFirstRowFields(Reset(data).state, actions, data);
    FieldsSize(Run(Reset(data).state, actions, data));
    if Distinct(data[0]) {
      ReachableListsDistinct(Run(Reset(data).state, actions, data), data);
    }
  }

  /** While the lists hold the first row's names, which `Object.keys` gives
      without repeats, neither list holds a name twice. */
  lemma ReachableListsDistinct(s: Chooser, data: seq<seq<string>>)
    requires |data| > 0 && Distinct(data[0]) && Fields(s) == multiset(data[0])
    ensures Distinct(s.included) && Distinct(s.excluded)
  {
    DistinctOfMultiset(s.included, data[0]);
    DistinctOfMultiset(s.excluded, data[0]);
  }

  /** Pressing reset, or opening the dialog again, discards every choice the
      user made: the lists are the first row's names, whatever was done. */
  lemma ResetDiscardsChoices(s: Chooser, actions: seq<Action>, data: seq<seq<string>>)
    requires |data| > 0
    ensures Step(Run(s, actions, data), PressReset, data) == Chooser(data[0], [])
    ensures OpenEffect(Run(s, actions, data), true, data) == Done(Chooser(data[0], []))
  {
  }

  // ---------------------------------------------------------------------
  // Deleting a chip

  /** Deleting the `i`-th included chip, as written: `onDelete={remove}` calls
      `remove` with the click event, so `indexOf` answers -1 and the last
      included field moves, whichever chip was clicked. */
  function DeleteIncludedChipAsWritten(s: Chooser, i: nat): (r: Chooser)
    requires i < |s.included|
    ensures r.included == s.included[..|s.included| - 1]
    ensures r.excluded == s.excluded + [s.included[|s.included| - 1]]
  {
    Remove(s, ClickEvent)
  }

  /** Deleting the first of two included chips moves the second one. */
  lemma DeleteIncludedChipAsWrittenMovesLast()
    ensures DeleteIncludedChipAsWritten(Chooser(["species", "sex"], []), 0) == Chooser(["species"], ["sex"])
  {
  }

  /** Deleting the `i`-th included chip as intended: the handler is given the
      chip's own field name, and (the field names being distinct) exactly
      that field moves. */
  function DeleteIncludedChip(s: Chooser, i: nat): (r: Chooser)
    requires i < |s.included|
    ensures Fields(r) == Fields(s)
    ensures Distinct(s.included) ==>
              r.included == s.included[..i] + s.included[i + 1..]
              && r.excluded == s.excluded + [s.included[i]]
  {
    IndexOfDistinct(s.included, i);
    Remove(s, FieldName(s.included[i]))
  }

  /** Deleting the `i`-th excluded chip, as written: `onDelete={add}` passes
      the click event, so the last excluded field moves. */
  function DeleteExcludedChipAsWritten(s: Chooser, i: nat): (r: Chooser)
    requires i < |s.excluded|
    ensures r.excluded == s.excluded[..|s.excluded| - 1]
    ensures r.included == s.included + [s.excluded[|s.excluded| - 1]]
  {
    Add(s, ClickEvent)
  }

  /** Deleting the first of two excluded chips moves the second one. */
  lemma DeleteExcludedChipAsWrittenMovesLast()
    ensures DeleteExcludedChipAsWritten(Chooser([], ["species", "sex"]), 0) == Chooser(["sex"], ["species"])
  {
  }

  /** Deleting the `i`-th excluded chip as intended: exactly that field moves. */
  function DeleteExcludedChip(s: Chooser, i: nat): (r: Chooser)
    requires i < |s.excluded|
    ensures Fields(r) == Fields(s)
    ensures Distinct(s.excluded) ==>
              r.excluded == s.excluded[..i] + s.excluded[i + 1..]
              && r.included == s.included + [s.excluded[i]]
  {
    IndexOfDistinct(s.excluded, i);
    Add(s, FieldName(s.excluded[i]))
  }

  /** In every state holding the first row's names, which is every state
      reachable from a reset dialog (`ResetThenRun`), deleting an included
      chip with the corrected handler moves exactly the clicked field. */
  lemma ReachableIncludedChipMovesClicked(data: seq<seq<string>>, st: Chooser, i: nat)
    requires |data| > 0 && Distinct(data[0]) && Fields(st) == multiset(data[0])
    requires i < |st.included|
    ensures DeleteIncludedChip(st, i) == Chooser(st.included[..i] + st.included[i + 1..], st.excluded + [st.included[i]])
  {
    ReachableListsDistinct(st, data);
  }

  /** Likewise for an excluded chip. */
  lemma ReachableExcludedChipMovesClicked(data: seq<seq<string>>, st: Chooser, i: nat)
    requires |data| > 0 && Distinct(data[0]) && Fields(st) == multiset(data[0])
    requires i < |st.excluded|
    ensures DeleteExcludedChip(st, i) == Chooser(st.included + [st.excluded[i]], st.excluded[..i] + st.excluded[i + 1..])
  {
    ReachableListsDistinct(st, data);
  }

  /** In a list without repeats, `indexOf` finds each element where it is. */
  lemma IndexOfDistinct(s: seq<string>, i: nat)
    requires i < |s|
    ensures Distinct(s) ==> IndexOf(s, s[i]) == i
  {
  }
}

=== FILE: js_values.dfy ===
/** The slice of JavaScript semantics the form and map helpers rely on:
    primitive values, plain records, property reads, truthiness, string
    conversion, `indexOf`, `join`, and a small object heap so that aliasing
    (a helper that returns its argument rather than a copy) can be stated. */
module JsValues {

  /** A JavaScript value as the helpers see it. Numbers are integers: NaN,
      fractions and negative zero are not modelled, so strict equality `===`
      coincides with equality of these values (functions and objects compare
      by reference). */
  datatype Value =
    | Undefined
    | Null
    | Bool(b: bool)
    | Num(n: int)
    | Str(s: string)
    | Fn(fnRef: nat)
    | Obj(objRef: nat)

  /** A plain object: its own enumerable string-keyed properties. */
  type Record = map<string, Value>

  datatype Option<+T> = None | Some(value: T)

  /** The property read `obj[key]`. */
  function Read(obj: Record, key: string): (v: Value)
    ensures key in obj ==> v == obj[key]
    ensures key !in obj ==> v == Undefined
  {
    if key in obj then obj[key] else Undefined
  }

  /** JavaScript truthiness: `undefined`, `null`, `false`, `0` and `''` are falsy. */
  predicate Truthy(v: Value) {
    match v
    case Undefined => false
    case Null => false
    case Bool(b) => b
    case Num(n) => n != 0
    case Str(s) => s != ""
    case Fn(_) => true
    case Obj(_) => true
  }

  /** The values `??` and `?.` treat as absent. */
  predicate Nullish(v: Value) {
    v.Undefined? || v.Null?
  }

  /** The `typeof` operator. */
  function TypeOf(v: Value): string {
    match v
    case Undefined => "undefined"
    case Null => "object"
    case Bool(_) => "boolean"
    case Num(_) => "number"
    case Str(_) => "string"
    case Fn(_) => "function"
    case Obj(_) => "object"
  }

  function DigitChar(d: nat): (c: char)
    requires d < 10
    ensures '0' <= c <= '9'
  {
    "0123456789"[d]
  }

  /** Decimal digits of a natural number, most significant first. */
  function NatToString(n: nat): (s: string)
    ensures |s| >= 1
    ensures forall i :: 0 <= i < |s| ==> '0' <= s[i] <= '9'
    decreases n
  {
    if n < 10 then [DigitChar(n)] else NatToString(n / 10) + [DigitChar(n % 10)]
  }

  /** String conversion as done by template literals and `+` on a string.
      A function's source text is not modelled; it converts to a fixed marker. */
  function ToString(v: Value): string {
    match v
    case Undefined => "undefined"
    case Null => "null"
    case Bool(b) => if b then "true" else "false"
    case Num(n) => if n < 0 then "-" + NatToString(-n) else NatToString(n)
    case Str(s) => s
    case Fn(_) => "function"
    case Obj(_) => "[object Object]"
  }

  /** `a || b`: the first operand when it is truthy, otherwise the second. */
  function OrElse(a: Value, b: Value): (r: Value)
    ensures Truthy(a) ==> r == a
    ensures !Truthy(a) ==> r == b
  {
    if Truthy(a) then a else b
  }

  /** `Array.prototype.indexOf` / `String.prototype.indexOf` for one element:
      the position of the first occurrence, or -1. */
  function IndexOf<T(==)>(s: seq<T>, x: T): (pos: int)
    ensures -1 <= pos < |s|
    ensures pos == -1 <==> x !in s
    ensures 0 <= pos < |s| ==> s[pos] == x && x !in s[..pos]
  {
    if |s| == 0 then -1
    else if s[0] == x then 0
    else
      var j := IndexOf(s[1..], x);
      assert s[1..][..if j < 0 then 0 else j] == s[1..if j < 0 then 1 else j + 1];
      if j < 0 then -1 else j + 1
  }

  /** No element occurs twice. */
  predicate Distinct<T(==)>(s: seq<T>) {
    forall i, j :: 0 <= i < j < |s| ==> s[i] != s[j]
  }

  /** A list without repeats holds each value at most once. */
  lemma {:induction false} DistinctCount<T>(t: seq<T>, x: T)
    requires Distinct(t)
    ensures multiset(t)[x] <= 1
    decreases |t|
  {
    if |t| > 0 {
      var rest := t[1..];
      assert t == [t[0]] + rest;
      assert Distinct(rest) by {
        forall i, j | 0 <= i < j < |rest|
          ensures rest[i] != rest[j]
        {
          assert rest[i] == t[i + 1] && rest[j] == t[j + 1];
        }
      }
      assert t[0] !in rest by {
        forall k | 0 <= k < |rest|
          ensures rest[k] != t[0]
        {
          assert rest[k] == t[k + 1];
        }
      }
      DistinctCount(rest, x);
    }
  }

  /** A value at two positions is held at least twice. */
  lemma RepeatCount<T>(s: seq<T>, i: int, j: int)
    requires 0 <= i < j < |s|
    ensures s[i] == s[j] ==> multiset(s)[s[j]] >= 2
  {
    assert s == s[..j] + [s[j]] + s[j + 1..];
    assert s[..j][i] == s[i];
  }

  /** Fewer copies of the values of a list without repeats have no repeats. */
  lemma DistinctOfMultiset<T>(s: seq<T>, t: seq<T>)
    requires Distinct(t) && multiset(s) <= multiset(t)
    ensures Distinct(s)
  {
    forall i, j | 0 <= i < j < |s|
      ensures s[i] != s[j]
    {
      DistinctCount(t, s[j]);
      RepeatCount(s, i, j);
    }
  }

  /** A position holding `y` with no `y` before it is what `indexOf` finds. */
  lemma {:induction false} IndexOfUnique<T>(s: seq<T>, y: T, k: int)
    requires 0 <= k < |s| && s[k] == y && y !in s[..k]
    ensures IndexOf(s, y) == k
    decreases |s|
  {
    assert k > 0 ==> s[..k][0] == s[0];
    if s[0] != y {
      assert s[1..][..k - 1] == s[..k][1..];
      IndexOfUnique(s[1..], y, k - 1);
    }
  }

  /** The first occurrence in `p` stays the first one after appending. */
  lemma {:induction false} IndexOfAppend<T>(p: seq<T>, x: T, y: T)
    ensures y in p ==> IndexOf(p + [x], y) == IndexOf(p, y)
    ensures y !in p && y == x ==> IndexOf(p + [x], y) == |p|
  {
    if y in p {
      var j := IndexOf(p, y);
      assert (p + [x])[..j] == p[..j];
      IndexOfUnique(p + [x], y, j);
    } else if y == x {
      assert (p + [x])[..|p|] == p;
      IndexOfUnique(p + [x], y, |p|);
    }
  }

  /** `Array.prototype.join(sep)` over strings. */
  function Join(parts: seq<string>, sep: string): string {
    if |parts| == 0 then ""
    else if |parts| == 1 then parts[0]
    else parts[0] + sep + Join(parts[1..], sep)
  }

  /** Objects by reference. `next` is the next unused reference. */
  type Ref = nat

  datatype Heap = Heap(objects: map<Ref, Record>, next: Ref) {
    predicate Valid() {
      forall r :: r in objects ==> r < next
    }
  }

  /** Allocates a new object holding `rec`. */
  function Alloc(h: Heap, rec: Record): (res: (Heap, Ref))
    requires h.Valid()
    ensures res.0.Valid()
    ensures res.1 !in h.objects
    ensures res.0.objects == h.objects[res.1 := rec]
  {
    (Heap(h.objects[h.next := rec], h.next + 1), h.next)
  }

  /** `Object.assign(target, src)`: copies every own property of `src` onto
      the target object and returns the target itself, not a copy. */
  function Assign(h: Heap, target: Ref, src: Record): (res: (Heap, Ref))
    requires h.Valid() && target in h.objects
    ensures res.0.Valid()
    ensures res.1 == target
    ensures res.0.objects.Keys == h.objects.Keys
    ensures forall r :: r in h.objects && r != target ==> res.0.objects[r] == h.objects[r]
    ensures res.0.objects[target].Keys == h.objects[target].Keys + src.Keys
    ensures forall k :: k in src ==> res.0.objects[target][k] == src[k]
    ensures forall k :: k in h.objects[target] && k !in src ==>
              res.0.objects[target][k] == h.objects[target][k]
  {
    (h.(objects := h.objects[target := h.objects[target] + src]), target)
  }

  /** Replaces the contents of an existing object (the net effect of a run of
      `delete` statements on it). */
  function Store(h: Heap, target: Ref, rec: Record): (h': Heap)
    requires h.Valid() && target in h.objects
    ensures h'.Valid()
    ensures h'.objects.Keys == h.objects.Keys
    ensures h'.objects[target] == rec
    ensures forall r :: r in h.objects && r != target ==> h'.objects[r] == h.objects[r]
  {
    h.(objects := h.objects[target := rec])
  }
}

=== FILE: map_page.dfy ===
/** The rules of the map page that remain once the map library is set
    aside: ping styling, popup text, the selected-device list, the export
    key handler, date picking and the one-time map set-up
    (pages/map/MapPage.tsx). The point-in-polygon test is not part of the
    model: its result, the list of selected features, is an input here. */
module MapPage {
  import opened JsValues

  /** A ping as GeoJSON: only its properties matter to these rules. */
  datatype Feature = Feature(properties: Record)

  // ---------------------------------------------------------------------
  // Ping style

  const MortalityColour: string := "#ff0000"
  const LiveColour: string := "#00ff44"

  datatype PointStyle = PointStyle(
    radius: nat, fillColor: string, color: string, weight: nat, opacity: real, fillOpacity: real)

  /** The status value that selects the mortality colour. */
  const Mortality: Value := Str("Mortality")

  /** `pointToLayer` of the ping layer: a circle marker whose fill is red for a
      mortality and green for every other status. */
  function PingStyle(f: Feature): (st: PointStyle)
    ensures st.fillColor == MortalityColour <==> Read(f.properties, "animal_status") == Mortality
    ensures st.fillColor == LiveColour <==> Read(f.properties, "animal_status") != Mortality
    ensures st.radius == 8 && st.color == "#000" && st.weight == 1
    ensures st.opacity == 1.0 && st.fillOpacity == 0.9
  {
    var colour := if Read(f.properties, "animal_status") == Mortality then MortalityColour else LiveColour;
    PointStyle(8, colour, "#000", 1, 1.0, 0.9)
  }

  /** The style depends on the status alone: two pings with the same status
      look the same whatever their other properties. */
  lemma PingStyleDependsOnStatusOnly(f: Feature, g: Feature)
    requires Read(f.properties, "animal_status") == Read(g.properties, "animal_status")
    ensures PingStyle(f) == PingStyle(g)
  {
  }

  // ---------------------------------------------------------------------
  // Popup text

  /** `${p[key] || fallback}`: the field's text, or the fallback when the
      field is falsy. The heading uses it for the species (fallback `''`)
      and the animal id (fallback `'No WLHID'`). */
  function FieldOr(p: Record, key: string, fallback: string): (s: string)
    ensures !Truthy(Read(p, key)) ==> s == fallback
    ensures Truthy(Read(p, key)) ==> s == ToString(Read(p, key))
  {
    ToString(OrElse(Read(p, key), Str(fallback)))
  }

  /** An optional popup line: the labelled value and a break when the value
      is truthy, nothing at all otherwise. */
  function OptionalLine(caption: string, v: Value): (line: string)
    ensures line == "" <==> !Truthy(v)
    ensures Truthy(v) ==> line == caption + ToString(v) + "<br>"
  {
    if Truthy(v) then caption + ToString(v) + "<br>" else ""
  }

  /** The seven template lines of `onEachFeature`'s popup. The formatted
      time and the coordinates come from a date library and `toFixed(5)`,
      which are not part of this model, so they arrive already formatted. */
  function PopupLines(p: Record, time: string, x: string, y: string): (lines: seq<string>)
    ensures |lines| == 7
    ensures lines[0] == FieldOr(p, "species", "") + " " + FieldOr(p, "animal_id", "No WLHID") + " <br>"
    ensures lines[1] == "<hr>"
    ensures lines[2] == "Device ID " + ToString(Read(p, "device_id")) + " (" + ToString(Read(p, "device_vendor")) + ") <br>"
    ensures lines[3] == "" <==> !Truthy(Read(p, "radio_frequency"))
    ensures Truthy(Read(p, "radio_frequency")) ==>
              lines[3] == "Frequency of " + ToString(Read(p, "radio_frequency")) + "<br>"
    ensures lines[4] == "" <==> !Truthy(Read(p, "population_unit"))
    ensures Truthy(Read(p, "population_unit")) ==>
              lines[4] == "Unit " + ToString(Read(p, "population_unit")) + "<br>"
    ensures lines[5] == time + " <br>"
    ensures lines[6] == x + ", " + y
  {
    [ FieldOr(p, "species", "") + " " + FieldOr(p, "animal_id", "No WLHID") + " <br>",
      "<hr>",
      "Device ID " + ToString(Read(p, "device_id")) + " (" + ToString(Read(p, "device_vendor")) + ") <br>",
      OptionalLine("Frequency of ", Read(p, "radio_frequency")),
      OptionalLine("Unit ", Read(p, "population_unit")),
      time + " <br>",
      x + ", " + y ]
  }

  /** The popup HTML: the seven lines, each on its own line indented by
      eight spaces, and the closing line by six, as the template literal
      writes them. */
  function PopupText(p: Record, time: string, x: string, y: string): (text: string)
    ensures var nl := "\n        ";
            text == nl + (FieldOr(p, "species", "") + " " + FieldOr(p, "animal_id", "No WLHID") + " <br>")
                    + nl + "<hr>"
                    + nl + ("Device ID " + ToString(Read(p, "device_id")) + " (" + ToString(Read(p, "device_vendor")) + ") <br>")
                    + nl + OptionalLine("Frequency of ", Read(p, "radio_frequency"))
                    + nl + OptionalLine("Unit ", Read(p, "population_unit"))
                    + nl + (time + " <br>")
                    + nl + (x + ", " + y)
                    + "\n      "
  {
    var lines, nl := PopupLines(p, time, x, y), "\n        ";
    nl + lines[0] + nl + lines[1] + nl + lines[2] + nl + lines[3]
    + nl + lines[4] + nl + lines[5] + nl + lines[6] + "\n      "
  }

  /** The feature properties the popup reads. */
  const PopupKeys: set<string> :=
    {"species", "animal_id", "device_id", "device_vendor", "radio_frequency", "population_unit"}

  /** The popup depends on nothing but the six properties it reads: two pings
      that agree on those get the same popup, whatever else they carry. */
  lemma PopupReadsOnlyItsFields(p: Record, q: Record, time: string, x: string, y: string)
    requires forall k :: k in PopupKeys ==> Read(p, k) == Read(q, k)
    ensures PopupLines(p, time, x, y) == PopupLines(q, time, x, y)
    ensures PopupText(p, time, x, y) == PopupText(q, time, x, y)
  {
    assert "species" in PopupKeys && "animal_id" in PopupKeys && "device_id" in PopupKeys;
    assert "device_vendor" in PopupKeys && "radio_frequency" in PopupKeys && "population_unit" in PopupKeys;
  }

  /** A ping with neither species nor animal id, frequency or unit shows the
      fallback label and two empty lines where the optional ones would be. */
  lemma PopupOfBarePing(device: Value, vendor: Value, time: string, x: string, y: string)
    ensures var p := map["device_id" := device, "device_vendor" := vendor];
            var lines := PopupLines(p, time, x, y);
            lines[0] == " No WLHID <br>" && lines[3] == "" && lines[4] == ""
  {
    var p := map["device_id" := device, "device_vendor" := vendor];
    var lines := PopupLines(p, time, x, y);
    assert !Truthy(Read(p, "radio_frequency")) && !Truthy(Read(p, "population_unit"));
    assert lines[0] == FieldOr(p, "species", "") + " " + FieldOr(p, "animal_id", "No WLHID") + " <br>";
    assert FieldOr(p, "species", "") == "" && FieldOr(p, "animal_id", "No WLHID") == "No WLHID";
    assert "" + " " + "No WLHID" + " <br>" == " No WLHID <br>";
  }

  // ---------------------------------------------------------------------
  // Selected device ids

  /** `overlay.features.map((f) => f.properties.device_id)`. */
  function DeviceIds(features: seq<Feature>): (ids: seq<Value>)
    ensures |ids| == |features|
    ensures forall i :: 0 <= i < |features| ==> ids[i] == Read(features[i].properties, "device_id")
  {
    if |features| == 0 then []
    else [Read(features[0].properties, "device_id")] + DeviceIds(features[1..])
  }

  /** One step of the reduce: keep `id` only when `indexOf` does not find it. */
  function AppendIfAbsent(total: seq<Value>, id: Value): seq<Value> {
    if IndexOf(total, id) >= 0 then total else total + [id]
  }

  /** The reduce of `displaySelectedUnits`, folding from the left. */
  function Dedup(ids: seq<Value>): seq<Value>
    decreases |ids|
  {
    if |ids| == 0 then [] else AppendIfAbsent(Dedup(ids[..|ids| - 1]), ids[|ids| - 1])
  }

  /** The de-duplicated list holds no value twice. */
  lemma {:induction false} DedupDistinct(ids: seq<Value>)
    ensures Distinct(Dedup(ids))
    decreases |ids|
  {
    if |ids| > 0 {
      DedupDistinct(ids[..|ids| - 1]);
    }
  }

  /** The de-duplicated list holds exactly the values of the input. */
  lemma {:induction false} DedupSameElements(ids: seq<Value>)
    ensures forall x :: x in Dedup(ids) <==> x in ids
    decreases |ids|
  {
    if |ids| > 0 {
      var prefix := ids[..|ids| - 1];
      DedupSameElements(prefix);
      assert ids == prefix + [ids[|ids| - 1]];
    }
  }

  /** The de-duplicated list is in order of first occurrence in the input. */
  lemma {:induction false} DedupFirstOccurrenceOrder(ids: seq<Value>)
    ensures forall a, b :: 0 <= a < b < |Dedup(ids)| ==> IndexOf(ids, Dedup(ids)[a]) < IndexOf(ids, Dedup(ids)[b])
    decreases |ids|
  {
    if |ids| > 0 {
      var prefix, last := ids[..|ids| - 1], ids[|ids| - 1];
      var d := Dedup(prefix);
      DedupFirstOccurrenceOrder(prefix);
      DedupSameElements(prefix);
      assert ids == prefix + [last];
      forall a, b | 0 <= a < b < |Dedup(ids)|
        ensures IndexOf(ids, Dedup(ids)[a]) < IndexOf(ids, Dedup(ids)[b])
      {
        IndexOfAppend(prefix, last, Dedup(ids)[a]);
        IndexOfAppend(prefix, last, Dedup(ids)[b]);
        if b < |d| {
          assert Dedup(ids)[a] == d[a] && Dedup(ids)[b] == d[b];
        } else {
          assert Dedup(ids)[a] == d[a] && d[a] in prefix;
        }
      }
    }
  }

  /** On input without repeats the de-duplication changes nothing. */
  lemma {:induction false} DedupOfDistinct(ids: seq<Value>)
    requires Distinct(ids)
    ensures Dedup(ids) == ids
    decreases |ids|
  {
    if |ids| > 0 {
      var prefix := ids[..|ids| - 1];
      DedupOfDistinct(prefix);
      assert ids[|ids| - 1] !in prefix;
      assert prefix + [ids[|ids| - 1]] == ids;
    }
  }

  /** De-duplicating twice is the same as once. */
  lemma DedupIdempotent(ids: seq<Value>)
    ensures Dedup(Dedup(ids)) == Dedup(ids)
  {
    DedupDistinct(ids);
    DedupOfDistinct(Dedup(ids));
  }

  /** The three facts that pin the de-duplicated list down. */
  lemma {:induction false} DedupCharacterised(ids: seq<Value>)
    ensures Distinct(Dedup(ids))
    ensures forall x :: x in Dedup(ids) <==> x in ids
    ensures forall a, b :: 0 <= a < b < |Dedup(ids)| ==> IndexOf(ids, Dedup(ids)[a]) < IndexOf(ids, Dedup(ids)[b])
  {
    DedupDistinct(ids);
    DedupSameElements(ids);
    DedupFirstOccurrenceOrder(ids);
  }

  /** `displaySelectedUnits(overlay)`: the device ids of the selected pings,
      each once, in the order of first appearance. */
  method DistinctDeviceIds(overlay: seq<Feature>) returns (selected: seq<Value>)
    ensures Distinct(selected)
    ensures forall x :: x in selected <==> x in DeviceIds(overlay)
    ensures forall a, b :: 0 <= a < b < |selected| ==>
              IndexOf(DeviceIds(overlay), selected[a]) < IndexOf(DeviceIds(overlay), selected[b])
  {
    var ids := DeviceIds(overlay);
    selected := [];
    var i := 0;
    while i < |ids|
      invariant 0 <= i <= |ids|
      invariant selected == Dedup(ids[..i])
    {
      assert Dedup(ids[..i + 1]) == AppendIfAbsent(Dedup(ids[..i]), ids[i]) by {
        assert ids[..i + 1][..i] == ids[..i];
      }
      if IndexOf(selected, ids[i]) < 0 {
        selected := selected + [ids[i]];
      }
      i := i + 1;
    }
    assert ids[..|ids|] == ids;
    DedupCharacterised(ids);
  }

  // ---------------------------------------------------------------------
  // Export on Ctrl+S

  datatype KeyEvent = KeyEvent(ctrlKey: bool, keyCode: int)

  /** A download request: what is encoded (the KML encoding itself is not
      modelled), the file name and the MIME type. */
  datatype Download = Download(features: seq<Feature>, fileName: string, mimeType: string)

  const SaveKeyCode: int := 83

  predicate IsSaveShortcut(e: KeyEvent) {
    e.ctrlKey && e.keyCode == SaveKeyCode
  }

  /** `handleKeyPress`: anything but Ctrl+S is ignored; Ctrl+S downloads the
      selection when it holds a feature and every ping otherwise. */
  function HandleKeyPress(e: KeyEvent, selection: seq<Feature>, pings: seq<Feature>): (d: Option<Download>)
    ensures d.None? <==> !(e.ctrlKey && e.keyCode == SaveKeyCode)
    ensures d.Some? ==> d.value.fileName == "collars.kml" && d.value.mimeType == "application/xml"
    ensures d.Some? && |selection| > 0 ==> d.value.features == selection
    ensures d.Some? && |selection| == 0 ==> d.value.features == pings
  {
    if !IsSaveShortcut(e) then None
    else if |selection| > 0 then Some(Download(selection, "collars.kml", "application/xml"))
    else Some(Download(pings, "collars.kml", "application/xml"))
  }

  /** The selection a page exposes to its key handler. */
  datatype Selection = Selection(layer: seq<Feature>, deviceIds: seq<Value>)

  /** A polygon drawn, edited or deleted, as written: the draw handlers were
      registered when the map was built and fill that render's highlight
      layer, while setting the device list re-renders the page, and every
      render builds a new, empty highlight layer that its own key handler
      reads. */
  function OnSelectionDrawnAsWritten(overlay: seq<Feature>): (s: Selection)
    ensures s.deviceIds == Dedup(DeviceIds(overlay))
    ensures s.layer == []
  {
    Selection([], Dedup(DeviceIds(overlay)))
  }

  /** As written, Ctrl+S after drawing a selection exports every ping, even
      when the selection is not empty. */
  lemma ExportAfterSelectionAsWritten(overlay: seq<Feature>, pings: seq<Feature>)
    ensures HandleKeyPress(KeyEvent(true, SaveKeyCode), OnSelectionDrawnAsWritten(overlay).layer, pings)
            == Some(Download(pings, "collars.kml", "application/xml"))
  {
  }

  /** `layer.addData(overlay)`: the overlay's features join those the layer
      already holds. */
  function AddData(layer: seq<Feature>, overlay: seq<Feature>): (r: seq<Feature>)
    ensures |r| == |layer| + |overlay| && r[..|layer|] == layer && r[|layer|..] == overlay
  {
    layer + overlay
  }

  /** `layer.clearLayers()`: the layer holds nothing afterwards. */
  function ClearLayers(layer: seq<Feature>): (r: seq<Feature>)
    ensures r == []
  {
    []
  }

  /** A polygon drawn, edited or deleted, with the highlight layer merely kept
      in one place across renders (in a ref, say) and the handler otherwise
      as written: `addData` appends the overlay to what the layer held, and
      the loop before it only takes the old markers off the map, not out of
      the layer. */
  function OnSelectionDrawnKeptLayer(prev: seq<Feature>, overlay: seq<Feature>): (s: Selection)
    ensures |s.layer| == |prev| + |overlay| && s.layer[..|prev|] == prev && s.layer[|prev|..] == overlay
    ensures s.deviceIds == Dedup(DeviceIds(overlay))
  {
    Selection(AddData(prev, overlay), Dedup(DeviceIds(overlay)))
  }

  /** With the layer only kept, deleting the polygon (an empty overlay) empties
      the device list but leaves the earlier selection in the layer, so Ctrl+S
      exports that selection rather than every ping. */
  lemma KeptLayerExportsStaleSelection(prev: seq<Feature>, pings: seq<Feature>)
    requires |prev| > 0
    ensures OnSelectionDrawnKeptLayer(prev, []).deviceIds == []
    ensures HandleKeyPress(KeyEvent(true, SaveKeyCode), OnSelectionDrawnKeptLayer(prev, []).layer, pings)
            == Some(Download(prev, "collars.kml", "application/xml"))
  {
    assert OnSelectionDrawnKeptLayer(prev, []).layer == prev;
  }

  /** A polygon drawn, edited or deleted, with the highlight layer kept in one
      place across renders and emptied (`clearLayers()`) before `addData`:
      the layer holds exactly the selected pings, whatever it held before. */
  function OnSelectionDrawn(prev: seq<Feature>, overlay: seq<Feature>): (s: Selection)
    ensures s.layer == overlay
    ensures s.deviceIds == Dedup(DeviceIds(overlay))
  {
    Selection(AddData(ClearLayers(prev), overlay), Dedup(DeviceIds(overlay)))
  }

  /** With the layer kept and cleared, Ctrl+S after drawing exports the
      selection when it is not empty and every ping when it is, whatever was
      selected before. */
  lemma {:induction false} ExportAfterSelection(prev: seq<Feature>, overlay: seq<Feature>, pings: seq<Feature>)
    ensures var d := HandleKeyPress(KeyEvent(true, SaveKeyCode), OnSelectionDrawn(prev, overlay).layer, pings);
            d.Some? && d.value.features == (if |overlay| > 0 then overlay else pings)
  {
  }

  // ---------------------------------------------------------------------
  // Date picking

  /** The two date strings that drive the ping and track queries. */
  datatype DateWindow = DateWindow(start: string, end: string)

  /** `handlePickDate(event)`: the event is an object with one property, given
      here as its entries in key order. Its first key names the field:
      `tstart` sets the start, `tend` the end, anything else (or no key at
      all) changes nothing. No check keeps the start before the end. */
  function HandlePickDate(w: DateWindow, event: seq<(string, string)>): (w': DateWindow)
    ensures |event| > 0 && event[0].0 == "tstart" ==> w'.start == event[0].1 && w'.end == w.end
    ensures |event| > 0 && event[0].0 == "tend" ==> w'.end == event[0].1 && w'.start == w.start
    ensures |event| == 0 || (event[0].0 != "tstart" && event[0].0 != "tend") ==> w' == w
  {
    if |event| == 0 then w
    else if event[0].0 == "tstart" then w.(start := event[0].1)
    else if event[0].0 == "tend" then w.(end := event[0].1)
    else w
  }

  /** A start is stored as given, whatever the end: a start after the end is
      not clamped or swapped. */
  lemma PickDateDoesNotOrder(w: DateWindow, start: string)
    ensures HandlePickDate(w, [("tstart", start)]) == DateWindow(start, w.end)
  {
  }

  /** Picking a start and an end, in either order, gives exactly that
      window, whatever the window was before. */
  lemma PickStartAndEnd(w: DateWindow, start: string, end: string)
    ensures HandlePickDate(HandlePickDate(w, [("tstart", start)]), [("tend", end)]) == DateWindow(start, end)
    ensures HandlePickDate(HandlePickDate(w, [("tend", end)]), [("tstart", start)]) == DateWindow(start, end)
  {
  }

  /** Picking the same field twice keeps the later value only. */
  lemma PickDateLastWins(w: DateWindow, key: string, first: string, second: string)
    ensures HandlePickDate(HandlePickDate(w, [(key, first)]), [(key, second)]) == HandlePickDate(w, [(key, second)])
  {
  }

  /** Only the event's first key counts: further properties are ignored. */
  lemma PickDateFirstKeyOnly(w: DateWindow, event: seq<(string, string)>, more: seq<(string, string)>)
    requires |event| > 0
    ensures HandlePickDate(w, event + more) == HandlePickDate(w, event[..1])
  {
    assert (event + more)[0] == event[..1][0];
  }

  // ---------------------------------------------------------------------
  // One-time map set-up

  /** Whether the map exists, and how many times the map and the sidebar
      have been set up. */
  datatype MapHost = MapHost(mapCreated: bool, mapInits: nat, sidebarInits: nat)

  /** The effect that runs after every render: it builds the map and the
      sidebar only when no map exists yet. */
  function UpdateComponent(h: MapHost): (h': MapHost)
    ensures h'.mapCreated
    ensures h.mapCreated ==> h' == h
    ensures !h.mapCreated ==> h'.mapInits == h.mapInits + 1 && h'.sidebarInits == h.sidebarInits + 1
  {
    if h.mapCreated then h
    else MapHost(true, h.mapInits + 1, h.sidebarInits + 1)
  }

  /** The effect run `n` times in a row. */
  function RunEffects(h: MapHost, n: nat): MapHost
    decreases n
  {
    if n == 0 then h else RunEffects(UpdateComponent(h), n - 1)
  }

  /** However often the effect runs, the map and the sidebar are set up at
      most once, and exactly once when it runs at least once on a page
      without a map. */
  lemma {:induction false} InitialisedAtMostOnce(h: MapHost, n: nat)
    ensures RunEffects(h, n).mapInits <= h.mapInits + 1
    ensures n > 0 ==> RunEffects(h, n).mapCreated
    ensures h.mapCreated ==> RunEffects(h, n) == h
    ensures n > 0 && !h.mapCreated ==>
              RunEffects(h, n).mapInits == h.mapInits + 1 && RunEffects(h, n).sidebarInits == h.sidebarInits + 1
    decreases n
  {
    if n > 0 {
      InitialisedAtMostOnce(UpdateComponent(h), n - 1);
    }
  }
}
